=== FILE: README.md ===
# Prompt log and inference service, modelled in Dafny

This project models the two parts of the repository that have logic of their own.

- **The prompt-log appender** (`scripts/add-prompt.py`). It adds one note to a markdown log. It adds today's
  heading `### YYYY-MM-DD` unless that text already occurs in the log. It adds the header `#### section` when a
  section is given and that header occurs nowhere in the log. It then adds the entry `- note (link)` and writes
  the lines back, each ending in a newline. A missing log is first created holding `## Project Prompts Log` and
  an empty line.
- **The inference web service** (`app.py`). A global dictionary caches model pipelines under keys
  `task:model-name`, where the model name is `default` when none is given. `get_model` loads a pipeline only on
  a cache miss, and on a miss it refuses unknown task types. The inference endpoint does three things in order. It fills in the
  default task type (`text-generation`) and token limit (50) for fields the request leaves out. It then refuses
  an empty prompt with 400. Last, it fetches the task's pipeline, runs it, and echoes the task type and seed. A second endpoint lists the two tasks.

Modules:

- `Wrappers` (`wrappers.dfy`): `Option` and `Result`. A `Failure` stands for a raised exception.
- `Text` (`text.dfy`): the Python string operations that the appender relies on. These are `str.splitlines()`
  with Python's full set of line boundaries (`\r\n` counts as one), `"\n".join`, the substring test `w in s`,
  and the truthiness of a value that is a string or `None`.
- `PromptLog` (`prompt_log.dfy`): the appender. The log file is an input: `None` means a missing file. The date
  is an input too, and the result is the text written back. `AppendPrompt` builds the line list step by step,
  as the script does. It is proved equal to the declarative `AppendedText`, and the lemmas are stated about
  `AppendedText`.
- `InferenceApp` (`inference_app.dfy`): the class `App` holds the cache `models: map<string, Pipeline>`.
  `Pipeline` is a type parameter. Three calls into the model library are function-valued parameters:
  `load` (creating a pipeline), `generate` and `classify`.

Behaviours of the code that the model keeps, some of them surprising:

- Both "already there?" tests in the appender are substring tests over the whole log. They are not line tests,
  and they are not limited to today's part of the log. So a header `#### Ideas` written on an earlier day stops
  the header from being added under today's heading, although a comment in the script says otherwise. Also,
  `### 2024-05-01` occurs inside `#### 2024-05-01 notes`.
- `get_model` raises for an unknown task type before the handler reaches its own 400 branch for unknown tasks
  (`app.py:63-64`). The error handler turns that exception into a 500 (`app.py:72-75`). `App.Inference` states
  when this happens. An unsupported task whose key `task + ":default"` is not cached gives 500. So does every
  unsupported task name without a colon. The 400 branch is reached exactly when the prompt is non-empty and the cache already holds
  an entry under that key for an unsupported task; it answers `Unsupported task type: …` and leaves the cache
  alone. With the cache invariant `App.Valid`, that needs a task name
  that contains a colon. The handler itself only ever caches `text-generation:default` and
  `sentiment-analysis:default` (the invariant `App.HandlerKeysOnly`, which the constructor sets up and
  `App.Inference` keeps). While that holds, every unsupported task gives 500 and a 400 always means an empty
  prompt. Only a direct `get_model` call with a model name could cache another key.
- The default GPT-2 pipeline is cached under `text-generation:default`. An explicit `gpt2` gets a second key and
  a second load. An explicit model name `default` or `""` shares the default key.
- `app.py` has no mock fallback mode and keeps no session history, so the model has neither. For an unsupported
  task type it answers 500, not 400.

## Model

| member | source | states |
|---|---|---|
| `Text.SplitLines` | scripts/add-prompt.py:22 | the lines of a text hold no line boundary, and there are none exactly when the text is empty |
| `Text.Render` | scripts/add-prompt.py:43 | the written text always ends with a newline and is the first line, a newline, then the rest |
| `Text.SplitRender` | scripts/add-prompt.py:22-43 | writing lines out and splitting the text again gives back the same lines, when no line holds a boundary |
| `Text.SplitRenderPrefix` | scripts/add-prompt.py:22-43 | splitting the written text gives back the leading single-line lines unchanged, whatever the lines after them hold |
| `Text.OccurrenceWithinLine` | scripts/add-prompt.py:26 | a single-line text found in the log lies inside one of the log's lines |
| `Text.ContainsLineOfRender` | scripts/add-prompt.py:43 | what occurs in one line occurs in the written text |
| `PromptLog.TodayHeading` | scripts/add-prompt.py:14-15 | the heading is `### `, four year digits, `-`, two month digits, `-`, two day digits: 14 characters on one line |
| `PromptLog.HeadingRoundTrip` | scripts/add-prompt.py:15 | the heading of a day reads back as that same day (zero-padded fields) |
| `PromptLog.ParseHeadingExact` | scripts/add-prompt.py:15 | a string that reads as a day is exactly that day's heading, so distinct days get distinct headings |
| `PromptLog.EnsureFile` | scripts/add-prompt.py:9-11 | an existing log is kept as it is; a missing one starts with the title line and one empty line |
| `PromptLog.AppendPrompt` | scripts/add-prompt.py:18-43 | the imperative append writes exactly `AppendedText`: the old lines, the appended lines, each ending in a newline |
| `PromptLog.LineKindsDiffer` | scripts/add-prompt.py:15-35 | a day heading, a section header and an entry are never the same line |
| `PromptLog.AppendedShape` | scripts/add-prompt.py:26-41 | one to three lines are appended and the entry is last. The heading is appended, and comes first, exactly when it is absent from the whole log. The section header is appended, right before the entry, exactly when a section is given and its header is absent |
| `PromptLog.AppendKeepsExistingLines` | scripts/add-prompt.py:22-43 | re-reading the written log gives the old lines unchanged and in order, then the appended lines, with the entry last |
| `PromptLog.AppendKeepsOldLinesFirst` | scripts/add-prompt.py:22-43 | for every note, link and section, re-reading the written log starts with the old lines unchanged and in order |
| `PromptLog.HeadingAppendedOnce` | scripts/add-prompt.py:23-27 | after an append the day heading is in the log, so a second append that day does not add it again |
| `PromptLog.SectionHeaderAppendedOnce` | scripts/add-prompt.py:34-38 | for a section without line boundaries: after an append with that section its header is in the log, so a later append with that section on any day does not add it again |
| `PromptLog.HeadingNotInNewLog` | scripts/add-prompt.py:11-27 | a newly created log holds no day heading, so the first append always adds one |
| `PromptLog.FirstAppendToMissingLog` | scripts/add-prompt.py:9-43 | the first note in a missing log gives title, empty line, heading and `- note`, each ending in a newline |
| `InferenceApp.CacheKeyInjective` | app.py:12 | for task names without a colon, equal cache keys mean the same task and the same model part |
| `InferenceApp.ServedKeyTask` | app.py:12-22 | a colon-free task's key starts with a supported task and a colon exactly when the task is supported |
| `InferenceApp.SupportedKeyServed` | app.py:12-20 | every key a supported task is cached under starts with that task and a colon, so it starts with a supported task and a colon |
| `InferenceApp.DefaultKeyOwner` | app.py:12 | two tasks share the key of their default model exactly when they are the same task |
| `InferenceApp.DefaultGenerationKey` | app.py:12-17 | the GPT-2 default is loaded under `text-generation:default`; an explicit `gpt2` has another key; `default` and `""` share the default key |
| `InferenceApp.GetTasks` | app.py:77-85 | the listed task ids are two and distinct, and they are exactly the tasks the cache can load |
| `InferenceApp.App.constructor` | app.py:8 | the cache starts empty, so it holds only keys the handler creates |
| `InferenceApp.App.GetModel` | app.py:10-25 | a hit returns the cached pipeline and changes nothing. A supported miss returns the loader's result and caches it under the key, leaving every other entry as it was. An unknown task fails with `Unsupported task type: …` and changes nothing, as does a failed load. Afterwards, a returned pipeline is the one cached under the key |
| `InferenceApp.App.Inference` | app.py:32-75 | an empty or absent prompt gives 400 and leaves the cache alone. An unsupported task whose default key is not cached gives 500, not 400, and so does every unsupported colon-free task. A non-empty prompt with an unsupported task whose default key is cached gives 400 `Unsupported task type: …` and leaves the cache alone; any other 400 needs an unsupported task with a colon. When the cache holds only the two keys the handler creates, it still does afterwards, every unsupported task gives 500, and a 400 means an empty prompt. Task and token limit default to `text-generation` and 50. On a cache miss for a supported task, a successful load is cached under the task's key and nothing else changes, and a failed load gives 500 with its message. Answers echo the task and seed and are the result of running the task's cached pipeline, a failed run giving 500 with its message. At most the task's key is added to the cache |

## Left out

- File reading and writing, `argparse`, `print` and `datetime.date.today()`: the file content and the date are
  parameters and the written text is the result.
- Years before 1000 in the heading: the model writes four zero-padded digits for every year from 1 to 9999.
  Some C libraries print `%Y` for such years without the padding.
- `PromptLog.AppendKeepsExistingLines`: the equality "old lines, then exactly the appended lines" is stated
  only for notes, links and sections without line boundaries. A note holding a newline is written as given and
  reads back as several lines. That the old lines come first holds for every input
  (`PromptLog.AppendKeepsOldLinesFirst`).
- `PromptLog.SectionHeaderAppendedOnce`: stated only for a section without line boundaries. A section such as
  `a\rb` has its header written back split at the boundary and joined with `\n`, so the header `#### a\rb` is
  no longer in the log and a later append adds it again.
- `set_seed(int(seed))` (`app.py:46-47`): seeding the library's random generator is a foreign call and is left
  out. A seed that `int()` cannot convert, which would give a 500, is not modelled: the seed is an integer.
- The pipelines themselves: what `generate` and `classify` return is opaque. The sentiment confidence is given
  already printed with four decimals, because floating-point formatting is not modelled.
- The JSON body is a record of optional fields. An explicit JSON `null` for `task_type` or `max_tokens`, fields
  of other JSON types, and a body that is not JSON are not modelled.
- Flask routing, the `index` page (`render_template`), the JSON encoding of replies, logging of tracebacks,
  and any concurrency between requests (the model handles one request at a time).
- The demo scripts `inference.py`, `Inference-FinBERT.py`, `Inference-TextGeneration.py`, `LangChain-Setup.py`,
  `LangChainWithOutputParser.py` and `RunnableWithMessageHistory.py`: they only call library pipelines and print
  the results. The session store in `RunnableWithMessageHistory.py` is a get-or-create lookup of the same kind as
  `App.GetModel`.

=== FILE: inference_app.dfy ===
/**
 * The inference web service: a process-wide cache of model pipelines, the
 * handler of inference requests, and the list of supported tasks.
 *
 * Loading a pipeline and running it are calls into a model library; they are
 * parameters here (`load`, `generate`, `classify`), and a `Failure` from one of
 * them stands for the exception that call would raise. `Pipeline` is whatever
 * the library hands back.
 */
module InferenceApp {
  import opened Wrappers
  import opened Text

  const TextGeneration: string := "text-generation"
  const SentimentAnalysis: string := "sentiment-analysis"
  /** The generation model loaded when no model name is given. */
  const DefaultGenerationModel: string := "gpt2"
  const DefaultMaxTokens: int := 50
  const NoPromptMessage: string := "No prompt provided"

  predicate IsSupported(taskType: string) {
    taskType == TextGeneration || taskType == SentimentAnalysis
  }

  function UnsupportedMessage(taskType: string): (message: string) {
    "Unsupported task type: " + taskType
  }

  // ---------------------------------------------------------------------------
  // Cache keys
  // ---------------------------------------------------------------------------

  /** The model part of a cache key: the given name, or "default" when none is given. */
  function KeyName(modelName: Option<string>): (name: string) {
    if Truthy(modelName) then modelName.value else "default"
  }

  /** The cache key of a task and an optional model name, "task:name". */
  function CacheKey(taskType: string, modelName: Option<string>): (key: string) {
    taskType + ":" + KeyName(modelName)
  }

  /**
   * The model the loader is asked for: for text generation the given name or
   * "gpt2"; for sentiment analysis none, so the library picks its own.
   */
  function LoaderModel(taskType: string, modelName: Option<string>): (model: Option<string>) {
    if taskType == TextGeneration
    then Some(if Truthy(modelName) then modelName.value else DefaultGenerationModel)
    else None
  }

  predicate StartsWith(s: string, prefix: string) {
    |prefix| <= |s| && s[..|prefix|] == prefix
  }

  /** A key that an entry of a supported task has: the task, a colon, then a model name. */
  predicate IsServedKey(key: string) {
    StartsWith(key, TextGeneration + ":") || StartsWith(key, SentimentAnalysis + ":")
  }

  /** Two "a:b" strings whose first parts hold no colon split at the same place. */
  lemma ColonSplit(a: string, b: string, x: string, y: string)
    requires ':' !in a && ':' !in x
    requires a + ":" + b == x + ":" + y
    ensures a == x && b == y
  {
    var s := a + ":" + b;
    assert forall k :: 0 <= k < |a| ==> s[k] == a[k] && s[k] != ':';
    assert forall k :: 0 <= k < |x| ==> s[k] == x[k] && s[k] != ':';
    assert s[|a|] == ':' && s[|x|] == ':';
    assert |a| == |x|;
    assert a == s[..|a|] && x == s[..|x|];
    assert b == s[|a| + 1..] && y == s[|x| + 1..];
  }

  /**
   * For task names without a colon, different tasks or different model names
   * never share a cache key.
   */
  lemma CacheKeyInjective(t1: string, n1: Option<string>, t2: string, n2: Option<string>)
    requires ':' !in t1 && ':' !in t2
    requires CacheKey(t1, n1) == CacheKey(t2, n2)
    ensures t1 == t2 && KeyName(n1) == KeyName(n2)
  {
    ColonSplit(t1, KeyName(n1), t2, KeyName(n2));
  }

  /** Every key built for a supported task starts with that task and a colon, so it is a served key. */
  lemma SupportedKeyServed(taskType: string, modelName: Option<string>)
    requires IsSupported(taskType)
    ensures StartsWith(CacheKey(taskType, modelName), taskType + ":")
    ensures IsServedKey(CacheKey(taskType, modelName))
  {
    var key := CacheKey(taskType, modelName);
    assert key[..|taskType| + 1] == taskType + ":";
  }

  /** A key that starts with "p:" belongs to task p, when neither name holds a colon. */
  lemma KeyPrefixTask(taskType: string, modelName: Option<string>, p: string)
    requires ':' !in taskType && ':' !in p
    requires StartsWith(CacheKey(taskType, modelName), p + ":")
    ensures taskType == p
  {
    var key := CacheKey(taskType, modelName);
    assert key == p + ":" + key[|p| + 1..] by {
      assert key[..|p| + 1] == p + ":";
    }
    ColonSplit(taskType, KeyName(modelName), p, key[|p| + 1..]);
  }

  /**
   * A task name without a colon has a served key only if it is supported, so
   * the cache never holds an entry for an unsupported task of that kind.
   */
  lemma ServedKeyTask(taskType: string, modelName: Option<string>)
    requires ':' !in taskType
    ensures IsServedKey(CacheKey(taskType, modelName)) <==> IsSupported(taskType)
  {
    var key := CacheKey(taskType, modelName);
    if StartsWith(key, TextGeneration + ":") {
      KeyPrefixTask(taskType, modelName, TextGeneration);
    }
    if StartsWith(key, SentimentAnalysis + ":") {
      KeyPrefixTask(taskType, modelName, SentimentAnalysis);
    }
    if IsSupported(taskType) {
      SupportedKeyServed(taskType, modelName);
    }
  }

  /**
   * The default generation pipeline is GPT-2 stored under
   * "text-generation:default"; an explicit "gpt2" gets a key of its own, and an
   * explicit "default" or "" shares the default key.
   */
  lemma DefaultGenerationKey()
    ensures CacheKey(TextGeneration, None) == "text-generation:default"
    ensures LoaderModel(TextGeneration, None) == Some("gpt2")
    ensures CacheKey(TextGeneration, Some("gpt2")) != CacheKey(TextGeneration, None)
    ensures LoaderModel(TextGeneration, Some("gpt2")) == LoaderModel(TextGeneration, None)
    ensures CacheKey(TextGeneration, Some("default")) == CacheKey(TextGeneration, None)
    ensures CacheKey(TextGeneration, Some("")) == CacheKey(TextGeneration, None)
  {
    assert |CacheKey(TextGeneration, Some("gpt2"))| != |CacheKey(TextGeneration, None)|;
  }

  /** Two tasks share the key of their default model exactly when they are the same task. */
  lemma DefaultKeyOwner(t: string, p: string)
    ensures CacheKey(t, None) == CacheKey(p, None) <==> t == p
  {
    var k := CacheKey(t, None);
    if k == CacheKey(p, None) {
      assert |t| == |p|;
      assert t == k[..|t|] && p == k[..|p|];
    }
  }

  // ---------------------------------------------------------------------------
  // Tasks, requests and responses
  // ---------------------------------------------------------------------------

  datatype TaskInfo = TaskInfo(id: string, name: string)

  /** The tasks the service offers: exactly the ones the cache can load. */
  function GetTasks(): (tasks: seq<TaskInfo>)
    ensures |tasks| == 2 && tasks[0].id != tasks[1].id
    ensures forall t :: IsSupported(t) <==> exists i :: 0 <= i < |tasks| && tasks[i].id == t
  {
    [ TaskInfo(TextGeneration, "Text Generation (GPT-2)"),
      TaskInfo(SentimentAnalysis, "Sentiment Analysis") ]
  }

  /** The fields of the JSON request body; `None` is a field that is absent. */
  datatype Request = Request(prompt: Option<string>, taskType: Option<string>,
                             seed: Option<int>, maxTokens: Option<int>)

  /** The prompt, empty when absent. */
  function PromptOf(request: Request): (prompt: string) {
    request.prompt.GetOr("")
  }

  /** The task type, text generation when absent. */
  function TaskOf(request: Request): (taskType: string) {
    request.taskType.GetOr(TextGeneration)
  }

  /** The token limit, 50 when absent. */
  function MaxTokensOf(request: Request): (maxTokens: int) {
    request.maxTokens.GetOr(DefaultMaxTokens)
  }

  /** A classification: the label (its name) and the confidence already printed with four decimals. */
  datatype Sentiment = Sentiment(name: string, confidence: string)

  function SentimentText(s: Sentiment): (text: string) {
    "Sentiment: " + s.name + " (Confidence: " + s.confidence + ")"
  }

  /** A JSON reply: an answer (status 200) or an error with its status. */
  datatype Response =
    | Answer(text: string, taskType: string, seed: Option<int>)
    | Error(status: int, message: string)

  // ---------------------------------------------------------------------------
  // The service and its model cache
  // ---------------------------------------------------------------------------

  class App<Pipeline> {
    /** The global model cache, keyed by CacheKey. */
    var models: map<string, Pipeline>

    /** Every cached key starts with a supported task and a colon. */
    ghost predicate Valid()
      reads this
    {
      forall key :: key in models ==> IsServedKey(key)
    }

    /**
     * Every cached key is the default key of a supported task: the only keys
     * the request handler creates, since it never passes a model name.
     */
    ghost predicate HandlerKeysOnly()
      reads this
    {
      forall key :: key in models ==>
        key == CacheKey(TextGeneration, None) || key == CacheKey(SentimentAnalysis, None)
    }

    constructor ()
      ensures models == map[] && Valid() && HandlerKeysOnly()
    {
      models := map[];
    }

    /**
     * Returns the pipeline for a task, loading it on a cache miss. A hit
     * returns the cached pipeline and changes nothing; a miss for a supported
     * task asks the loader and caches what it returns under the key; a miss
     * for any other task fails and changes nothing, as does a failed load.
     */
    method GetModel(taskType: string, modelName: Option<string>,
                    load: (string, Option<string>) -> Result<Pipeline, string>)
      returns (r: Result<Pipeline, string>)
      requires Valid()
      modifies this
      ensures Valid()
      ensures var key := CacheKey(taskType, modelName);
        if key in old(models) then
          r == Success(old(models)[key]) && models == old(models)
        else if !IsSupported(taskType) then
          r == Failure(UnsupportedMessage(taskType)) && models == old(models)
        else
          && r == load(taskType, LoaderModel(taskType, modelName))
          && models == if r.Success? then old(models)[key := r.value] else old(models)
      ensures r.Success? ==> CacheKey(taskType, modelName) in models
                             && models[CacheKey(taskType, modelName)] == r.value
    {
      var key := CacheKey(taskType, modelName);
      if key !in models {
        if taskType == TextGeneration {
          var name := if Truthy(modelName) then modelName.value else DefaultGenerationModel;
          var loaded := load(taskType, Some(name));
          if loaded.Failure? {
            return loaded;
          }
          SupportedKeyServed(taskType, modelName);
          models := models[key := loaded.value];
        } else if taskType == SentimentAnalysis {
          var loaded := load(taskType, None);
          if loaded.Failure? {
            return loaded;
          }
          SupportedKeyServed(taskType, modelName);
          models := models[key := loaded.value];
        } else {
          return Failure(UnsupportedMessage(taskType));
        }
      }
      r := Success(models[key]);
    }

    /**
     * Handles one inference request. An empty or absent prompt is refused
     * with 400 before the cache is touched. Otherwise the task's default
     * pipeline is fetched (loaded and cached on a miss) and run; any failure on the way (an unsupported
     * task, a failed load, a failed run) becomes a 500 with its message. The
     * 400 for an unsupported task is only reached when the cache already holds
     * an entry under that task's key: never for a task name without a colon,
     * and never while the cache holds only what this handler puts in it.
     */
    method Inference(request: Request,
                     load: (string, Option<string>) -> Result<Pipeline, string>,
                     generate: (Pipeline, string, int) -> Result<string, string>,
                     classify: (Pipeline, string) -> Result<Sentiment, string>)
      returns (response: Response)
      requires Valid()
      modifies this
      ensures Valid()
      ensures PromptOf(request) == "" ==>
        response == Error(400, NoPromptMessage) && models == old(models)
      ensures PromptOf(request) != "" && !IsSupported(TaskOf(request)) && ':' !in TaskOf(request) ==>
        response == Error(500, UnsupportedMessage(TaskOf(request))) && models == old(models)
      ensures PromptOf(request) != "" && !IsSupported(TaskOf(request))
              && CacheKey(TaskOf(request), None) !in old(models) ==>
        response == Error(500, UnsupportedMessage(TaskOf(request))) && models == old(models)
      ensures PromptOf(request) != "" && !IsSupported(TaskOf(request))
              && CacheKey(TaskOf(request), None) in old(models) ==>
        response == Error(400, UnsupportedMessage(TaskOf(request))) && models == old(models)
      ensures response.Error? && response.status == 400 ==>
        PromptOf(request) == "" || (!IsSupported(TaskOf(request)) && ':' in TaskOf(request))
      ensures old(HandlerKeysOnly()) ==> HandlerKeysOnly()
      ensures old(HandlerKeysOnly()) && PromptOf(request) != "" && !IsSupported(TaskOf(request)) ==>
        response == Error(500, UnsupportedMessage(TaskOf(request))) && models == old(models)
      ensures old(HandlerKeysOnly()) && response.Error? && response.status == 400 ==>
        PromptOf(request) == ""
      ensures response.Answer? ==>
        && IsSupported(TaskOf(request))
        && response.taskType == TaskOf(request)
        && response.seed == request.seed
      ensures var task := TaskOf(request);
        var key := CacheKey(task, None);
        PromptOf(request) != "" && IsSupported(task) && key !in old(models)
          && load(task, LoaderModel(task, None)).Failure? ==>
        response == Error(500, load(task, LoaderModel(task, None)).error) && models == old(models)
      ensures var task := TaskOf(request);
        var key := CacheKey(task, None);
        PromptOf(request) != "" && IsSupported(task) && key !in old(models)
          && load(task, LoaderModel(task, None)).Success? ==>
        models == old(models)[key := load(task, LoaderModel(task, None)).value]
      ensures var key := CacheKey(TextGeneration, None);
        PromptOf(request) != "" && TaskOf(request) == TextGeneration && key in models ==>
        response == match generate(models[key], PromptOf(request), MaxTokensOf(request))
                    case Success(text) => Answer(text, TextGeneration, request.seed)
                    case Failure(e) => Error(500, e)
      ensures var key := CacheKey(SentimentAnalysis, None);
        PromptOf(request) != "" && TaskOf(request) == SentimentAnalysis && key in models ==>
        response == match classify(models[key], PromptOf(request))
                    case Success(s) => Answer(SentimentText(s), SentimentAnalysis, request.seed)
                    case Failure(e) => Error(500, e)
      ensures var key := CacheKey(TaskOf(request), None);
        || models == old(models)
        || (key !in old(models) && key in models && models == old(models)[key := models[key]])
    {
      var prompt := request.prompt.GetOr("");
      var taskType := request.taskType.GetOr(TextGeneration);
      var seed := request.seed;
      var maxTokens := request.maxTokens.GetOr(DefaultMaxTokens);
      if prompt == "" {
        return Error(400, NoPromptMessage);
      }
      if !IsSupported(taskType) && ':' !in taskType {
        ServedKeyTask(taskType, None);
      }
      DefaultKeyOwner(taskType, TextGeneration);
      DefaultKeyOwner(taskType, SentimentAnalysis);
      var model := GetModel(taskType, None, load);
      if model.Failure? {
        return Error(500, model.error);
      }
      if taskType == TextGeneration {
        var result := generate(model.value, prompt, maxTokens);
        if result.Failure? {
          return Error(500, result.error);
        }
        response := Answer(result.value, taskType, seed);
      } else if taskType == SentimentAnalysis {
        var result := classify(model.value, prompt);
        if result.Failure? {
          return Error(500, result.error);
        }
        response := Answer(SentimentText(result.value), taskType, seed);
      } else {
        response := Error(400, UnsupportedMessage(taskType));
      }
    }
  }
}

=== FILE: prompt_log.dfy ===
/**
 * The prompt-log appender: given the current text of the markdown log (or its
 * absence), today's date, a note, and an optional link and section, it computes
 * the text written back. The file and the date are inputs here; reading and
 * writing the file and asking for today's date are left to the caller.
 */
module PromptLog {
  import opened Wrappers
  import opened Text

  /** The first line of a newly created log. */
  const LogTitle: string := "## Project Prompts Log"

  /** What a missing log file is created with: the title and an empty line. */
  const NewLogContent: string := LogTitle + "\n\n"

  // ---------------------------------------------------------------------------
  // Dates and the day heading "### YYYY-MM-DD"
  // ---------------------------------------------------------------------------

  datatype Date = Date(year: int, month: int, day: int)

  predicate IsLeapYear(y: int) {
    y % 4 == 0 && (y % 100 != 0 || y % 400 == 0)
  }

  function DaysInMonth(y: int, m: int): (days: int)
    requires 1 <= m <= 12
  {
    if m == 2 then (if IsLeapYear(y) then 29 else 28)
    else if m == 4 || m == 6 || m == 9 || m == 11 then 30
    else 31
  }

  /** The dates a calendar date object can hold: years 1 to 9999. */
  predicate ValidDate(d: Date) {
    1 <= d.year <= 9999 && 1 <= d.month <= 12 && 1 <= d.day <= DaysInMonth(d.year, d.month)
  }

  predicate IsDigit(c: char) {
    '0' <= c <= '9'
  }

  function DigitChar(v: int): (c: char)
    requires 0 <= v < 10
    ensures IsDigit(c) && DigitValue(c) == v
  {
    ('0' as int + v) as char
  }

  function DigitValue(c: char): (digit: int) {
    c as int - '0' as int
  }

  /** `n` as two decimal digits, zero-padded. */
  function Pad2(n: int): (digits: string)
    requires 0 <= n < 100
  {
    [DigitChar(n / 10), DigitChar(n % 10)]
  }

  /** `n` as four decimal digits, zero-padded. */
  function Pad4(n: int): (digits: string)
    requires 0 <= n < 10000
  {
    Pad2(n / 100) + Pad2(n % 100)
  }

  predicate AllDigits(s: string) {
    forall k :: 0 <= k < |s| ==> IsDigit(s[k])
  }

  function Value2(s: string): (n: int)
    requires |s| == 2
  {
    10 * DigitValue(s[0]) + DigitValue(s[1])
  }

  function Value4(s: string): (n: int)
    requires |s| == 4
  {
    100 * Value2(s[..2]) + Value2(s[2..])
  }

  /** The heading of a day: `date.strftime("### %Y-%m-%d")`. */
  function TodayHeading(d: Date): (h: string)
    requires ValidDate(d)
    ensures |h| == 14 && h[..4] == "### " && h[8] == '-' && h[11] == '-'
    ensures AllDigits(h[4..8]) && AllDigits(h[9..11]) && AllDigits(h[12..])
    ensures SingleLine(h)
  {
    "### " + Pad4(d.year) + "-" + Pad2(d.month) + "-" + Pad2(d.day)
  }

  /** Reads a day heading back; the inverse of TodayHeading. */
  function ParseHeading(h: string): (date: Option<Date>) {
    if |h| == 14 && h[..4] == "### " && h[8] == '-' && h[11] == '-'
       && AllDigits(h[4..8]) && AllDigits(h[9..11]) && AllDigits(h[12..])
    then
      var d := Date(Value4(h[4..8]), Value2(h[9..11]), Value2(h[12..]));
      if ValidDate(d) then Some(d) else None
    else None
  }

  lemma Pad2RoundTrip(n: int)
    requires 0 <= n < 100
    ensures AllDigits(Pad2(n)) && Value2(Pad2(n)) == n
  {
  }

  lemma Value2RoundTrip(s: string)
    requires |s| == 2 && AllDigits(s)
    ensures 0 <= Value2(s) < 100 && Pad2(Value2(s)) == s
  {
    var a, b := DigitValue(s[0]), DigitValue(s[1]);
    assert 0 <= a < 10 && 0 <= b < 10;
    assert (10 * a + b) / 10 == a && (10 * a + b) % 10 == b;
    assert DigitChar(a) == s[0] && DigitChar(b) == s[1];
  }

  lemma Pad4RoundTrip(n: int)
    requires 0 <= n < 10000
    ensures AllDigits(Pad4(n)) && Value4(Pad4(n)) == n
  {
    var s := Pad4(n);
    Pad2RoundTrip(n / 100);
    Pad2RoundTrip(n % 100);
    assert s[..2] == Pad2(n / 100) && s[2..] == Pad2(n % 100);
  }

  lemma Value4RoundTrip(s: string)
    requires |s| == 4 && AllDigits(s)
    ensures 0 <= Value4(s) < 10000 && Pad4(Value4(s)) == s
  {
    var hi, lo := s[..2], s[2..];
    Value2RoundTrip(hi);
    Value2RoundTrip(lo);
    var v := Value4(s);
    assert v == 100 * Value2(hi) + Value2(lo);
    assert v / 100 == Value2(hi) && v % 100 == Value2(lo);
    assert s == hi + lo;
  }

  /** Every day's heading reads back as that day. */
  lemma HeadingRoundTrip(d: Date)
    requires ValidDate(d)
    ensures ParseHeading(TodayHeading(d)) == Some(d)
  {
    var h := TodayHeading(d);
    Pad4RoundTrip(d.year);
    Pad2RoundTrip(d.month);
    Pad2RoundTrip(d.day);
    assert h[4..8] == Pad4(d.year);
    assert h[9..11] == Pad2(d.month);
    assert h[12..] == Pad2(d.day);
  }

  /** Every string that reads as a day is exactly that day's heading. */
  lemma ParseHeadingExact(h: string, d: Date)
    requires ParseHeading(h) == Some(d)
    ensures ValidDate(d) && TodayHeading(d) == h
  {
    Value4RoundTrip(h[4..8]);
    Value2RoundTrip(h[9..11]);
    Value2RoundTrip(h[12..]);
    assert h == h[..4] + h[4..8] + [h[8]] + h[9..11] + [h[11]] + h[12..];
  }

  // ---------------------------------------------------------------------------
  // The log file and the appended lines
  // ---------------------------------------------------------------------------

  /**
   * The content of the log once it is ensured to exist: an existing file is
   * left as it is, a missing one is created holding the title and an empty line.
   */
  function EnsureFile(file: Option<string>): (content: string)
    ensures file.Some? ==> content == file.value
    ensures file.None? ==> SplitLines(content) == [LogTitle, ""]
  {
    match file
    case Some(text) => text
    case None =>
      assert SingleLine(LogTitle) && SingleLine("");
      RenderFirst([LogTitle, ""]);
      assert [LogTitle, ""][1..] == [""];
      RenderFirst([""]);
      assert Render([LogTitle, ""]) == NewLogContent;
      SplitRender([LogTitle, ""]);
      NewLogContent
  }

  /** The header line of a section. */
  function SectionHeader(section: string): (header: string) {
    "#### " + section
  }

  /** The bullet line of a note, with the link in parentheses when one is given. */
  function Entry(note: string, link: Option<string>): (entry: string) {
    "- " + note + (if Truthy(link) then " (" + link.value + ")" else "")
  }

  /**
   * The lines appended to a log whose text is `content`: the day heading unless
   * it occurs anywhere in the text, then the section header when a section is
   * given and its header occurs nowhere in the text, then the entry.
   */
  function Appended(content: string, heading: string, note: string, link: Option<string>,
                    section: Option<string>): (added: seq<string>)
  {
    (if Contains(content, heading) then [] else [heading])
    + (if Truthy(section) && !Contains(content, SectionHeader(section.value))
       then [SectionHeader(section.value)] else [])
    + [Entry(note, link)]
  }

  /** The text written back: the existing lines, then the appended ones, each ended by "\n". */
  function AppendedText(file: Option<string>, today: Date, note: string, link: Option<string>,
                        section: Option<string>): (text: string)
    requires ValidDate(today)
  {
    var content := EnsureFile(file);
    Render(SplitLines(content) + Appended(content, TodayHeading(today), note, link, section))
  }

  /**
   * Appends one prompt entry to the log, building the list of lines step by
   * step; `written` is the text the log holds afterwards.
   */
  method AppendPrompt(file: Option<string>, today: Date, note: string, link: Option<string>,
                      section: Option<string>) returns (written: string)
    requires ValidDate(today)
    ensures written == AppendedText(file, today, note, link, section)
    ensures |written| > 0 && written[|written| - 1] == '\n'
  {
    var content := EnsureFile(file);
    var lines := SplitLines(content);
    ghost var added: seq<string> := [];
    var heading := TodayHeading(today);
    var headingMissing := !Contains(content, heading);
    if headingMissing {
      lines := lines + [heading];
      added := [heading];
    }
    var entry := "- " + note;
    if Truthy(link) {
      entry := entry + " (" + link.value + ")";
    }
    assert entry == Entry(note, link);
    if Truthy(section) {
      var sectHeader := "#### " + section.value;
      if !Contains(content, sectHeader) {
        lines := lines + [sectHeader];
        added := added + [sectHeader];
      }
      lines := lines + [entry];
      added := added + [entry];
    } else {
      lines := lines + [entry];
      added := added + [entry];
    }
    assert added == Appended(content, heading, note, link, section);
    assert lines == SplitLines(content) + added;
    written := Render(lines);
  }

  // ---------------------------------------------------------------------------
  // Properties of an append
  // ---------------------------------------------------------------------------

  /** Day headings, section headers and entries are three different kinds of line. */
  lemma LineKindsDiffer(today: Date, section: string, note: string, link: Option<string>)
    requires ValidDate(today)
    ensures TodayHeading(today) != SectionHeader(section)
    ensures TodayHeading(today) != Entry(note, link)
    ensures SectionHeader(section) != Entry(note, link)
  {
    var h := TodayHeading(today);
    assert h[3] == ' ' && SectionHeader(section)[3] == '#';
    assert h[0] == '#' && Entry(note, link)[0] == '-';
  }

  /**
   * An append adds one to three lines and ends with the entry; the day heading
   * is among them exactly when it occurs nowhere in the old text, and then it
   * comes first; the section header is among them exactly when a section is
   * given and its header occurs nowhere in the old text, and then it comes
   * right before the entry.
   */
  lemma AppendedShape(content: string, today: Date, note: string, link: Option<string>,
                      section: Option<string>)
    requires ValidDate(today)
    ensures var a := Appended(content, TodayHeading(today), note, link, section);
      && 1 <= |a| <= 3
      && a[|a| - 1] == Entry(note, link)
      && (TodayHeading(today) in a <==> !Contains(content, TodayHeading(today)))
      && (TodayHeading(today) in a ==> a[0] == TodayHeading(today))
      && (!Truthy(section) ==> |a| <= 2)
      && (Truthy(section) ==>
            (SectionHeader(section.value) in a <==> !Contains(content, SectionHeader(section.value))))
      && (Truthy(section) && SectionHeader(section.value) in a ==>
            a[|a| - 2] == SectionHeader(section.value))
  {
    var header := if section.Some? then section.value else "";
    LineKindsDiffer(today, header, note, link);
  }

  lemma SingleLineConcat(a: string, b: string)
    requires SingleLine(a) && SingleLine(b)
    ensures SingleLine(a + b)
  {
    assert forall k :: |a| <= k < |a + b| ==> (a + b)[k] == b[k - |a|];
  }

  /** Every appended line is a single line when the note, link and section are. */
  lemma AppendedSingleLines(content: string, today: Date, note: string, link: Option<string>,
                            section: Option<string>)
    requires ValidDate(today)
    requires SingleLine(note)
    requires link.Some? ==> SingleLine(link.value)
    requires section.Some? ==> SingleLine(section.value)
    ensures var a := Appended(content, TodayHeading(today), note, link, section);
      forall i :: 0 <= i < |a| ==> SingleLine(a[i])
  {
    SingleLineConcat("- ", note);
    if Truthy(link) {
      SingleLineConcat(" (", link.value);
      SingleLineConcat(" (" + link.value, ")");
      SingleLineConcat("- " + note, " (" + link.value + ")");
    } else {
      assert Entry(note, link) == "- " + note;
    }
    if section.Some? {
      SingleLineConcat("#### ", section.value);
    }
  }

  /**
   * Reading the written log back line by line gives the old lines, unchanged
   * and in order, followed by the appended ones: an append only ever adds at
   * the end. This holds when the note, link and section hold no line boundary.
   */
  lemma AppendKeepsExistingLines(file: Option<string>, today: Date, note: string,
                                 link: Option<string>, section: Option<string>)
    requires ValidDate(today)
    requires SingleLine(note)
    requires link.Some? ==> SingleLine(link.value)
    requires section.Some? ==> SingleLine(section.value)
    ensures var content := EnsureFile(file);
      var a := Appended(content, TodayHeading(today), note, link, section);
      var after := SplitLines(AppendedText(file, today, note, link, section));
      && after == SplitLines(content) + a
      && SplitLines(content) <= after
      && after[|after| - 1] == Entry(note, link)
  {
    var content := EnsureFile(file);
    var oldLines := SplitLines(content);
    var a := Appended(content, TodayHeading(today), note, link, section);
    AppendedSingleLines(content, today, note, link, section);
    var lines := oldLines + a;
    assert forall i :: 0 <= i < |lines| ==> SingleLine(lines[i]) by {
      forall i | 0 <= i < |lines|
        ensures SingleLine(lines[i])
      {
        if i < |oldLines| {
          assert lines[i] == oldLines[i];
        } else {
          assert lines[i] == a[i - |oldLines|];
        }
      }
    }
    SplitRender(lines);
    assert lines[|lines| - 1] == a[|a| - 1];
  }

  /**
   * Whatever the note, link and section hold, reading the written log back
   * starts with the old lines, unchanged and in order.
   */
  lemma AppendKeepsOldLinesFirst(file: Option<string>, today: Date, note: string,
                                 link: Option<string>, section: Option<string>)
    requires ValidDate(today)
    ensures SplitLines(EnsureFile(file)) <= SplitLines(AppendedText(file, today, note, link, section))
  {
    var content := EnsureFile(file);
    var a := Appended(content, TodayHeading(today), note, link, section);
    SplitRenderPrefix(SplitLines(content), a);
  }

  /** A word of one line is in the written text when it was in the old text or is an appended line. */
  lemma KeptOrAppended(content: string, extra: seq<string>, w: string)
    requires |w| > 0 && SingleLine(w)
    requires Contains(content, w) || w in extra
    ensures Contains(Render(SplitLines(content) + extra), w)
  {
    var oldLines := SplitLines(content);
    var lines := oldLines + extra;
    if Contains(content, w) {
      var i :| 0 <= i <= |content| - |w| && OccursAt(content, w, i);
      OccurrenceWithinLine(content, w, i);
      var j :| 0 <= j < |oldLines| && Contains(oldLines[j], w);
      assert lines[j] == oldLines[j];
      ContainsLineOfRender(lines, j, w);
    } else {
      var j :| 0 <= j < |extra| && extra[j] == w;
      assert lines[|oldLines| + j] == w;
      assert OccursAt(w, w, 0);
      ContainsLineOfRender(lines, |oldLines| + j, w);
    }
  }

  /**
   * After an append the day heading is in the log, so a second append on the
   * same day, whatever its note, link and section, does not add it again.
   */
  lemma HeadingAppendedOnce(file: Option<string>, today: Date, note: string, link: Option<string>,
                            section: Option<string>, note2: string, link2: Option<string>,
                            section2: Option<string>)
    requires ValidDate(today)
    ensures Contains(AppendedText(file, today, note, link, section), TodayHeading(today))
    ensures TodayHeading(today) !in
      Appended(AppendedText(file, today, note, link, section), TodayHeading(today), note2, link2, section2)
  {
    var content := EnsureFile(file);
    var h := TodayHeading(today);
    AppendedShape(content, today, note, link, section);
    KeptOrAppended(content, Appended(content, h, note, link, section), h);
    AppendedShape(AppendedText(file, today, note, link, section), today, note2, link2, section2);
  }

  /**
   * After an append with a section that holds no line boundary, its header is
   * in the log, so a second append with the same section, on any day, does not
   * add the header again. A section with a boundary in it is written back split
   * into lines, so its header need not survive the append.
   */
  lemma SectionHeaderAppendedOnce(file: Option<string>, today: Date, note: string,
                                  link: Option<string>, section: Option<string>, today2: Date,
                                  note2: string, link2: Option<string>)
    requires ValidDate(today) && ValidDate(today2)
    requires Truthy(section) && SingleLine(section.value)
    ensures Contains(AppendedText(file, today, note, link, section), SectionHeader(section.value))
    ensures SectionHeader(section.value) !in
      Appended(AppendedText(file, today, note, link, section), TodayHeading(today2), note2, link2, section)
  {
    var content := EnsureFile(file);
    var header := SectionHeader(section.value);
    AppendedShape(content, today, note, link, section);
    SingleLineConcat("#### ", section.value);
    KeptOrAppended(content, Appended(content, TodayHeading(today), note, link, section), header);
    AppendedShape(AppendedText(file, today, note, link, section), today2, note2, link2, section);
  }

  /** The heading of a day never occurs in the text of a new log. */
  lemma HeadingNotInNewLog(today: Date)
    requires ValidDate(today)
    ensures !Contains(NewLogContent, TodayHeading(today))
  {
    var h := TodayHeading(today);
    forall i | 0 <= i <= |NewLogContent| - |h|
      ensures !OccursAt(NewLogContent, h, i)
    {
      assert NewLogContent[i + 2] != '#';
      assert h[2] == '#';
    }
  }

  /** On a new log, a plain note appends the day heading and the entry. */
  lemma AppendedToNewLog(today: Date, note: string)
    requires ValidDate(today)
    ensures Appended(NewLogContent, TodayHeading(today), note, None, None)
      == [TodayHeading(today), "- " + note]
  {
    HeadingNotInNewLog(today);
    assert Entry(note, None) == "- " + note;
  }

  /**
   * The first append to a missing log gives the title, an empty line, the day
   * heading and the entry, each ended by a newline.
   */
  lemma FirstAppendToMissingLog(today: Date, note: string)
    requires ValidDate(today)
    ensures AppendedText(None, today, note, None, None)
      == Render([LogTitle, "", TodayHeading(today), "- " + note])
  {
    var h := TodayHeading(today);
    AppendedToNewLog(today, note);
    assert SplitLines(EnsureFile(None)) + [h, "- " + note] == [LogTitle, "", h, "- " + note];
  }
}

=== FILE: text.dfy ===
/**
 * The Python string operations the prompt log relies on: `str.splitlines()`,
 * `"\n".join(lines)`, the substring test `w in s`, and the truthiness of an
 * optional string.
 */
module Text {
  import opened Wrappers

  /** The characters at which Python's `str.splitlines()` ends a line. */
  predicate IsLineBreak(c: char) {
    c == '\n' || c == '\r' || c == '\U{B}' || c == '\U{C}' || c == '\U{1C}' || c == '\U{1D}'
    || c == '\U{1E}' || c == '\U{85}' || c == '\U{2028}' || c == '\U{2029}'
  }

  /** A string with no line boundary in it. */
  predicate SingleLine(s: string) {
    forall k :: 0 <= k < |s| ==> !IsLineBreak(s[k])
  }

  /** Python truthiness of a value that is a string or None: present and non-empty. */
  predicate Truthy(s: Option<string>) {
    s.Some? && s.value != ""
  }

  /** The length of the first line of `s`: the index of its first line boundary, or `|s|`. */
  function LineEnd(s: string): (n: nat)
    ensures n <= |s|
    ensures SingleLine(s[..n])
    ensures n < |s| ==> IsLineBreak(s[n])
  {
    if s == [] || IsLineBreak(s[0]) then 0 else 1 + LineEnd(s[1..])
  }

  /** The width of the boundary at `n`: "\r\n" counts as one boundary of two characters. */
  function BreakWidth(s: string, n: nat): (width: nat)
    requires n < |s|
  {
    if s[n] == '\r' && n + 1 < |s| && s[n + 1] == '\n' then 2 else 1
  }

  /**
   * Python's `s.splitlines()`: the lines of `s` without their boundaries; a final
   * boundary does not start an extra empty line, and the empty string has no lines.
   */
  function SplitLines(s: string): (lines: seq<string>)
    ensures |lines| == 0 <==> s == []
    ensures forall i :: 0 <= i < |lines| ==> SingleLine(lines[i])
    decreases |s|
  {
    if s == [] then []
    else
      var n := LineEnd(s);
      if n == |s| then [s] else [s[..n]] + SplitLines(s[n + BreakWidth(s, n)..])
  }

  /** Python's `"\n".join(lines)`. */
  function JoinLines(lines: seq<string>): (text: string) {
    if |lines| == 0 then ""
    else if |lines| == 1 then lines[0]
    else lines[0] + "\n" + JoinLines(lines[1..])
  }

  /** The text `"\n".join(lines) + "\n"` that is written back to a file. */
  function Render(lines: seq<string>): (text: string)
    ensures |text| > 0 && text[|text| - 1] == '\n'
  {
    JoinLines(lines) + "\n"
  }

  /** The rendered text is the first line, a newline, then the rest rendered. */
  lemma RenderFirst(lines: seq<string>)
    requires |lines| > 0
    ensures |lines| == 1 ==> Render(lines) == lines[0] + "\n"
    ensures |lines| > 1 ==> Render(lines) == lines[0] + "\n" + Render(lines[1..])
  {
  }

  /** `w` occurs in `s` starting at index `i`. */
  predicate OccursAt(s: string, w: string, i: int) {
    0 <= i <= |s| - |w| && s[i..i + |w|] == w
  }

  /** Python's substring test `w in s`. */
  predicate Contains(s: string, w: string) {
    exists i | 0 <= i <= |s| - |w| :: OccursAt(s, w, i)
  }

  lemma OccursInLeft(a: string, b: string, w: string, i: int)
    requires OccursAt(a, w, i)
    ensures OccursAt(a + b, w, i)
  {
    assert (a + b)[i..i + |w|] == a[i..i + |w|];
  }

  lemma OccursInRight(a: string, b: string, w: string, i: int)
    requires OccursAt(b, w, i)
    ensures OccursAt(a + b, w, |a| + i)
  {
    assert (a + b)[|a| + i..|a| + i + |w|] == b[i..i + |w|];
  }

  /** Whatever occurs in one of the lines occurs in the joined text. */
  lemma {:induction false} ContainsLineOfJoin(lines: seq<string>, j: int, w: string)
    requires 0 <= j < |lines| && Contains(lines[j], w)
    ensures Contains(JoinLines(lines), w)
  {
    if |lines| == 1 {
    } else if j == 0 {
      var i :| 0 <= i <= |lines[0]| - |w| && OccursAt(lines[0], w, i);
      OccursInLeft(lines[0], "\n" + JoinLines(lines[1..]), w, i);
      assert lines[0] + ("\n" + JoinLines(lines[1..])) == JoinLines(lines);
    } else {
      ContainsLineOfJoin(lines[1..], j - 1, w);
      var rest := JoinLines(lines[1..]);
      var i :| 0 <= i <= |rest| - |w| && OccursAt(rest, w, i);
      OccursInRight(lines[0] + "\n", rest, w, i);
    }
  }

  /** Whatever occurs in one of the lines occurs in the rendered text. */
  lemma ContainsLineOfRender(lines: seq<string>, j: int, w: string)
    requires 0 <= j < |lines| && Contains(lines[j], w)
    ensures Contains(Render(lines), w)
  {
    ContainsLineOfJoin(lines, j, w);
    var i :| 0 <= i <= |JoinLines(lines)| - |w| && OccursAt(JoinLines(lines), w, i);
    OccursInLeft(JoinLines(lines), "\n", w, i);
  }

  /** The first boundary of `s` is at `m` when `m` is a boundary and nothing before it is. */
  lemma {:induction false} LineEndAt(s: string, m: nat)
    requires m < |s| && IsLineBreak(s[m])
    requires forall k :: 0 <= k < m ==> !IsLineBreak(s[k])
    ensures LineEnd(s) == m
  {
    if m > 0 {
      LineEndAt(s[1..], m - 1);
    }
  }

  /** A line followed by "\n" splits off as exactly that line. */
  lemma SplitFirstLine(line: string, rest: string)
    requires SingleLine(line)
    ensures SplitLines(line + "\n" + rest) == [line] + SplitLines(rest)
  {
    var s := line + "\n" + rest;
    assert forall k :: 0 <= k < |line| ==> s[k] == line[k];
    LineEndAt(s, |line|);
    var n := LineEnd(s);
    assert s[..n] == line;
    assert s[n + BreakWidth(s, n)..] == rest;
  }

  /**
   * Reading back what was written gives the same lines, provided no line holds a
   * boundary of its own.
   */
  lemma {:induction false} SplitRender(lines: seq<string>)
    requires |lines| > 0
    requires forall i :: 0 <= i < |lines| ==> SingleLine(lines[i])
    ensures SplitLines(Render(lines)) == lines
  {
    if |lines| == 1 {
      RenderFirst(lines);
      SplitFirstLine(lines[0], "");
    } else {
      var rest := TailOfSingleLines(lines);
      SplitRender(rest);
      SplitRenderStep(lines[0], rest, rest);
      UnCons(lines, []);
    }
  }

  /** An occurrence of a single-line word ends before the first boundary or starts after it. */
  lemma OccurrenceAvoidsBreak(s: string, w: string, i: int)
    requires OccursAt(s, w, i) && |w| > 0 && SingleLine(w)
    requires LineEnd(s) < i + |w|
    ensures LineEnd(s) + BreakWidth(s, LineEnd(s)) <= i
  {
    assert forall k :: i <= k < i + |w| ==> s[k] == w[k - i];
  }

  /** An occurrence that ends before the first boundary lies in the first line. */
  lemma OccurrenceInFirstLine(s: string, w: string, i: int)
    requires OccursAt(s, w, i) && |w| > 0 && i + |w| <= LineEnd(s)
    ensures |SplitLines(s)| > 0 && Contains(SplitLines(s)[0], w)
  {
    var n := LineEnd(s);
    assert n == |s| ==> s[..n] == s;
    assert s[..n][i..i + |w|] == s[i..i + |w|];
    assert OccursAt(s[..n], w, i);
    assert SplitLines(s)[0] == s[..n];
  }

  /**
   * Splitting the written text of single-line lines followed by any further
   * lines gives back the first lines unchanged, then whatever the rest splits
   * into.
   */
  lemma {:induction false} SplitRenderPrefix(front: seq<string>, back: seq<string>)
    requires |back| > 0
    requires forall i :: 0 <= i < |front| ==> SingleLine(front[i])
    ensures SplitLines(Render(front + back)) == front + SplitLines(Render(back))
  {
    if |front| == 0 {
      assert front + back == back;
    } else {
      var rest := TailOfSingleLines(front);
      SplitRenderPrefix(rest, back);
      var split := SplitLines(Render(back));
      SplitRenderStep(front[0], rest + back, rest + split);
      UnCons(front, back);
      UnCons(front, split);
    }
  }

  /** The lines after the first are single lines too. */
  lemma TailOfSingleLines(lines: seq<string>) returns (rest: seq<string>)
    requires |lines| > 0
    requires forall i :: 0 <= i < |lines| ==> SingleLine(lines[i])
    ensures rest == lines[1..] && SingleLine(lines[0])
    ensures forall i :: 0 <= i < |rest| ==> SingleLine(rest[i])
  {
    rest := lines[1..];
    assert forall i :: 0 <= i < |rest| ==> rest[i] == lines[i + 1];
  }

  lemma UnCons<T>(front: seq<T>, back: seq<T>)
    requires |front| > 0
    ensures front + back == [front[0]] + (front[1..] + back)
  {
  }

  /** One more single line in front adds just that line in front of what is read back. */
  lemma SplitRenderStep(first: string, lines: seq<string>, split: seq<string>)
    requires SingleLine(first) && |lines| > 0
    requires SplitLines(Render(lines)) == split
    ensures SplitLines(Render([first] + lines)) == [first] + split
  {
    var all := [first] + lines;
    assert all[1..] == lines && all[0] == first;
    RenderFirst(all);
    SplitFirstLine(first, Render(lines));
  }

  /**
   * A single-line word that occurs in `s` occurs inside one of its lines: no
   * occurrence straddles a boundary.
   */
  lemma {:induction false} OccurrenceWithinLine(s: string, w: string, i: int)
    requires OccursAt(s, w, i) && |w| > 0 && SingleLine(w)
    ensures exists j :: 0 <= j < |SplitLines(s)| && Contains(SplitLines(s)[j], w)
    decreases |s|
  {
    var n := LineEnd(s);
    var lines := SplitLines(s);
    if i + |w| <= n {
      OccurrenceInFirstLine(s, w, i);
    } else {
      OccurrenceAvoidsBreak(s, w, i);
      var m := n + BreakWidth(s, n);
      var rest := s[m..];
      assert rest[i - m..i - m + |w|] == s[i..i + |w|];
      assert OccursAt(rest, w, i - m);
      OccurrenceWithinLine(rest, w, i - m);
      var j :| 0 <= j < |SplitLines(rest)| && Contains(SplitLines(rest)[j], w);
      assert lines == [s[..n]] + SplitLines(rest);
      assert lines[j + 1] == SplitLines(rest)[j];
    }
  }
}

=== FILE: wrappers.dfy ===
/** Optional values and results with an error, used for Python's None and raised exceptions. */
module Wrappers {

  datatype Option<+T> = None | Some(value: T) {
    /** The value, or `default` when there is none (Python's `d.get(key, default)`). */
    function GetOr(default: T): (v: T) {
      match this
      case Some(v) => v
      case None => default
    }
  }

  /** `Failure` carries the message of the exception that Python code would raise. */
  datatype Result<+R, +E> = Success(value: R) | Failure(error: E)
}
